=== FILE: README.md ===
# threadtalk views: a Dafny model of the client-side decisions

threadtalk's browser client is a set of React views over a REST backend.
Three views contain decision logic that can be stated without the framework,
and this project models exactly that logic as pure Dafny functions over
immutable data, with lemmas about it:

- **Post editor** (`EditPostForm`, module `EditPost`, `edit_post.dfy`):
  loading a post and the tag catalog into react-select options, splitting the
  selected options into `tag_ids` (values found in the catalog) and
  `new_tags` (labels of the rest), building the `PUT /posts/:id` body, and
  navigating to `/showpost/<id>` only when the update succeeds.
- **Profile editor** (`UserDataForm`, module `Profile`, `profile.dfy`):
  the display name it sends (truthy names are trimmed, falsy ones fall back to
  the username), the bio sent as typed, how an ok / non-ok / thrown response
  changes the form, the "No Bio Yet" fallback and the "My Posts" block.
- **Post page** (`ShowPost`, module `PostPage`, `show_post.dfy`): one render
  of a post — "No Post Found" without one, the author link, the tag links,
  the edit/delete/favourite/comment controls gated on the viewer, and the
  comment list in reverse order.

Shared pieces: `Basics` (`basics.dfy`) holds `Option`, the outcome of a
fetch `Response<T> = Ok(data) | NotOk | Thrown`, the `User`, `Tag` and `Post`
records, `Reverse`, and the building and reading back of a route with a
`${id}` parameter; `JsText` (`js_text.dfy`) models
`String.prototype.trim` (the WhiteSpace and LineTerminator code points of
ECMA-262) and the printing of an integer inside a template literal, with a
parser as its inverse.

Modelling choices:

- Every HTTP call is an input: `Response<T>` for calls whose outcome the code
  inspects. The editor's load never looks at `response.ok`, so it takes the
  parsed body instead: `Option<PostBody>` for `GET /posts/:id` (`None` when
  the call or the JSON parse threw; an error body such as `{"error": ...}`
  is a `PostBody` with no title, description or tags) and `Option<seq<Tag>>`
  for `GET /tags` (`None` when it threw or the body was not an array).
  A body `null` throws before any setter runs and is `None`; a `tags` field
  that is not an array makes the mapping throw just as a missing one does.
- `null`/`undefined` strings are `Option<string>`. The profile form's
  `authorname` and `bio`, the post page's fetched `authorname`, and the
  editor's title and description can become `null` or `undefined` because
  they are overwritten with whatever the server returns.
- react-select's `label` is the `name` field of `TagOption` (`label` is a
  Dafny keyword).
- JavaScript truthiness of a string is `Truthy`: present and non-empty.

## Model

| member | source | states |
|---|---|---|
| EditPost.OptionsOf | src/components/posts/EditPostForm.tsx:53 | one option per tag, in order, with label = tag name and value = tag id |
| EditPost.InCatalog | src/components/posts/EditPostForm.tsx:71 | the `some` test holds exactly when the value is one of the catalog's ids |
| EditPost.Split | src/components/posts/EditPostForm.tsx:71-73 | each filter keeps only selected options, and only those whose catalog membership matches its side |
| EditPost.NewTags | src/components/posts/EditPostForm.tsx:71 | every new tag is the label of a selected option whose value is not a catalog id; there are no more of them than selected options |
| EditPost.ExistingTagIds | src/components/posts/EditPostForm.tsx:73 | every id sent is a catalog id and the value of some selected option; there are no more of them than selected options |
| EditPost.SplitIsOrderedFilter | src/components/posts/EditPostForm.tsx:71-73 | each filter's k-th element is the selection's element at the k-th index of its class; indices strictly increase; an index is kept iff its value's catalog membership matches — order and duplicates kept |
| EditPost.PartitionCoversSelection | src/components/posts/EditPostForm.tsx:71-73 | `|newTags| + |existingTagIds| == |selectedTags|` |
| EditPost.PartitionIsDisjoint | src/components/posts/EditPostForm.tsx:71-73 | every selected index is classified on exactly one side |
| EditPost.OutputsFollowSelectionOrder | src/components/posts/EditPostForm.tsx:71-73 | `newTags` lists the labels and `existingTagIds` the values of the two classes, in selection order |
| EditPost.ExistingIdsComeFromCatalog | src/components/posts/EditPostForm.tsx:73 | every id in `existingTagIds` is the value of some catalog entry |
| EditPost.NewTagsAreUnknownLabels | src/components/posts/EditPostForm.tsx:71 | every new tag is the label of a selected option whose value matches no catalog value |
| EditPost.LabelCollisionStillNew | src/components/posts/EditPostForm.tsx:71 | an option whose label equals a catalog label but whose value is not a catalog id is sent as a new tag, not as an id |
| EditPost.ClassificationByValueOnly | src/components/posts/EditPostForm.tsx:71-73 | two catalogs with the same set of ids give the same outputs: catalog labels never matter |
| EditPost.SplitOfOneClass | src/components/posts/EditPostForm.tsx:71-73 | when every option is of one class, that filter returns the whole selection and the other returns nothing |
| EditPost.AllKnownMeansNoNewTags | src/components/posts/EditPostForm.tsx:71-73 | if every selected value is in the catalog, `newTags` is empty and `existingTagIds` is the selection's values |
| EditPost.EmptyCatalogMeansAllNew | src/components/posts/EditPostForm.tsx:71-73 | with an empty catalog, `existingTagIds` is empty and `newTags` lists every label |
| EditPost.GoRustExample | src/components/posts/EditPostForm.tsx:71-73 | catalog [{1,"go"}] with selection [{1,"go"},{2,"rust"}] gives tag_ids [1] and new_tags ["rust"] |
| EditPost.LoadForm | src/components/posts/EditPostForm.tsx:47-61 | a thrown call or parse changes nothing; otherwise title and description become the body's (undefined for an error body); a body with tags makes the selection one option per tag, in order, labelled by name and valued by id, and one without leaves selection and catalog alone; only then does a fetched catalog become one option per catalog tag, and a failed one keeps the old catalog |
| EditPost.UpdatePayload | src/components/posts/EditPostForm.tsx:71-85 | title and description pass unchanged, `user_id` is present iff a user is, `tag_ids` is `existingTagIds` and `new_tags` is `newTags`: the k-th id and the k-th new tag are the value and the label of the k-th selected option of their class; together they account for every selected option, and every id is a catalog id |
| EditPost.ResubmitLoadedTags | src/components/posts/EditPostForm.tsx:47-85 | submitting a freshly loaded form whose tags the catalog knows sends the post's own title, description and tag ids in order, and no new tags |
| EditPost.FailedCatalogResubmitsNames | src/components/posts/EditPostForm.tsx:38-85 | on a freshly mounted form, when `GET /tags` fails, submitting the loaded post sends no ids and every one of its tags as a new tag by name |
| EditPost.ErrorBodyUndefinesText | src/components/posts/EditPostForm.tsx:36-61 | an error body on the fresh form makes title and description undefined and leaves selection and catalog empty; a later submit sends no title, description or tags |
| Basics.RoutePath | src/components/posts/EditPostForm.tsx:102 | a route built as prefix + `${id}` starts with the prefix, and reading its parameter back gives `${id}` (`"undefined"` for a missing id) |
| Basics.RouteParamInverse | src/components/posts/EditPostForm.tsx:102 | a location that carries a route parameter is exactly the route built from that parameter |
| EditPost.ShowPostPath | src/components/posts/EditPostForm.tsx:102 | `/showpost/${id}` carries the route id as its parameter |
| EditPost.ShowPostRouteOf | src/components/posts/EditPostForm.tsx:102 | a recognised `/showpost/` location is the path built from the route id it carries |
| EditPost.AfterUpdate | src/components/posts/EditPostForm.tsx:97-105 | the form never changes; the location changes only on an ok response, and then names the edited post's route id; a non-ok or thrown outcome leaves the screen unchanged |
| JsText.Trim | src/components/UserDataForm.tsx:88 | the result is a trimmed infix of the input, and everything cut from either end is whitespace or a line terminator |
| JsText.TrimCharacterised | src/components/UserDataForm.tsx:88 | any trimmed string framed in the input by whitespace and line terminators is the trim: the contract of `Trim` determines its result |
| JsText.TrimEmptyIff | src/components/UserDataForm.tsx:88 | trimming yields "" exactly when the whole name is whitespace |
| JsText.TrimIdempotent | src/components/UserDataForm.tsx:88 | trimming a trimmed name changes nothing |
| Profile.SubmittedName | src/components/UserDataForm.tsx:88 | a truthy name is sent as the name with its surrounding whitespace cut off (a trimmed infix framed by whitespace, hence exactly its trim); a falsy name is sent as the username when a user is logged in and as nothing otherwise |
| Profile.SentNameIsTheTrimmedEntry | src/components/UserDataForm.tsx:88 | for a non-empty entry, any trimmed string framed in it by whitespace is the name that is sent |
| Profile.EmptyNameSendsUsername | src/components/UserDataForm.tsx:88 | an empty or null display name of a logged-in user submits `user.username`, whatever the bio |
| Profile.EmptyNameWithoutUserSendsNothing | src/components/UserDataForm.tsx:88 | a falsy name with no user submits no name |
| Profile.WhitespaceNameSendsEmpty | src/components/UserDataForm.tsx:88 | a whitespace-only name submits "" and not the username, because the truthiness test runs before the trim |
| Profile.VisibleNameSendsTrimmed | src/components/UserDataForm.tsx:88 | a name with a visible character submits the non-empty infix left after cutting the whitespace at both ends; an already trimmed name is submitted unchanged |
| Profile.SaveRequest | src/components/UserDataForm.tsx:99 | the bio is submitted exactly as entered, next to the resolved name |
| Profile.AfterSave | src/components/UserDataForm.tsx:102-115 | an ok response makes the local name and bio the server's and refetches the posts; a non-ok response or thrown error leaves them unchanged and refetches nothing |
| Profile.EchoedSaveIsStable | src/components/UserDataForm.tsx:88-107 | with a server that echoes the request, saving again sends the same name (for names with a visible character or falsy names, and trimmed usernames) |
| Profile.BlankNameFlipsToUsername | src/components/UserDataForm.tsx:88-107 | any non-empty, whitespace-only name is saved as "" (whatever the bio), and once the server echoes it the next save sends the username |
| Profile.FreshFormFallsBack | src/components/UserDataForm.tsx:26-28 | before the profile fetch answers, the page shows "No Bio Yet" and a save sends the username and an empty bio |
| Profile.ShownBioFollowsServer | src/components/UserDataForm.tsx:102-127 | after an ok save the shown bio is the server's; after a non-ok one it is the local bio |
| Profile.DisplayedBio | src/components/UserDataForm.tsx:127 | the shown bio is never empty: the bio when non-empty, else "No Bio Yet" |
| Profile.PostsSectionOf | src/components/UserDataForm.tsx:150-158 | the block is shown iff a user is logged in; it is the notice iff the list is empty; otherwise it lists the posts in reverse fetched order |
| JsText.IntToString | src/pages/ShowPost.tsx:115 | `${id}` prints decimal digits with no leading zero, preceded by `-` exactly when the id is negative |
| JsText.ParseIntToString | src/pages/ShowPost.tsx:115 | the printed tag id reads back as the same integer |
| JsText.ParseIntCanonical | src/pages/ShowPost.tsx:115 | the reader accepts only the printed form: a string that reads back as `n` is exactly `${n}` (no leading zeros, no `-0`) |
| PostPage.TagUrl | src/pages/ShowPost.tsx:114-116 | the URL built for a tag starts with `/categories?tagId=` and selects that tag's id |
| PostPage.TagUrlCanonical | src/pages/ShowPost.tsx:114-116 | the only location that selects tag `id` is `/categories?tagId=${id}` itself, so `TagUrl`'s contract fixes the URL |
| PostPage.TagUrlInjective | src/pages/ShowPost.tsx:114-116 | distinct tag ids give distinct URLs |
| PostPage.TagLinksOf | src/pages/ShowPost.tsx:128-130 | one link per tag, in order, each showing its name and selecting its id |
| PostPage.AuthorLink | src/pages/ShowPost.tsx:126 | the link targets `/user-data` iff a user is logged in whose username is the post's, and `/user/<post.username>` otherwise |
| PostPage.MayEdit | src/pages/ShowPost.tsx:136 | the edit gate holds exactly when a user is logged in and the fetched display name equals `author_name`; the username plays no part |
| PostPage.EditPath | src/pages/ShowPost.tsx:138 | `/editpost/${id}` carries the route id as its parameter |
| PostPage.Render | src/pages/ShowPost.tsx:119-158 | no post gives "No Post Found"; otherwise title, author label and description are the post's; the author link is `/user-data` for the owner by username and `/user/<post.username>` otherwise; edit iff a user is present and the fetched display name equals `author_name`, delete iff edit, both carrying the route id and the post id; favourite and comment form iff a user, each carrying the post id; login prompt iff none; one tag link per tag selecting its id; comments reversed |
| PostPage.NoPostNoActions | src/pages/ShowPost.tsx:119-121 | with no post loaded only "No Post Found" is produced and no action is shown |
| PostPage.CommentFormXorLoginPrompt | src/pages/ShowPost.tsx:152-155 | exactly one of the comment form and the login prompt is shown |
| PostPage.FavouriteIgnoresAuthorship | src/pages/ShowPost.tsx:148 | the favourite button does not depend on the viewer's display name |
| PostPage.EditorIsLoggedIn | src/pages/ShowPost.tsx:136-155 | whoever sees the edit link also sees the favourite button and comment form and no login prompt |
| PostPage.EditGateIgnoresUsername | src/pages/ShowPost.tsx:126-143 | a viewer whose display name matches `author_name` gets edit and delete even when the author link points at another username |
| PostPage.OwnerWithOtherDisplayNameCannotEdit | src/pages/ShowPost.tsx:126-143 | the owner by username is denied edit and delete while their fetched display name differs from `author_name`, though the author link points at `/user-data` |
| PostPage.CommentsReversedOnce | src/pages/ShowPost.tsx:156 | the rendered comments are exactly the fetched ones reversed |
| Basics.Reverse | src/pages/ShowPost.tsx:156 | the i-th element of the result is the input's i-th from the end, and the lengths agree |

## Left out

- All `fetch` calls, `process.env` URLs, `localStorage` token reads and JSON parsing: responses are inputs (`Response<T>` or `Option<T>`).
- React hooks, effect scheduling, and the race between fetches when the route id changes: framework and concurrency behaviour, not stateable logic here.
- The mount-time fetch of the current display name (UserDataForm.tsx:49-75, ShowPost.tsx:90-112): the post page takes its result as the `authorname` input.
- `Array.prototype.reverse()` mutating state in place across re-renders (ShowPost.tsx:156, UserDataForm.tsx:152): only a single render's order is modelled.
- `CreatableSelect`, `DeletePost`, `FavoriteButton`, `CommentForm`, `ShowComment`, `LogoutButton`, `PostItem` and `AllPosts`: foreign or rendering-only components; only the ids passed to them are modelled.
- A created react-select option carries a string `value` at runtime; it never equals a numeric catalog id, so it behaves like any option whose value is absent from the catalog, which the model covers with `int` values.
- `post.tags && ...` at ShowPost.tsx:128: a post without a `tags` array is not modelled; `Post.tags` is always a sequence.
- JsText.IntToString: ids are modelled as exact integers and printed as their exact decimal digits; in JavaScript an id above `Number.MAX_SAFE_INTEGER` (2^53 - 1) is rounded when the JSON is parsed, and `${id}` then prints the shortest digits that read back to the same double, padded with zeros, switching to exponent notation from 1e21 on.
- `console.log` / `console.error` output, CSS, layout and all backend behaviour.

=== FILE: basics.dfy ===
/** Shared vocabulary of the threadtalk client views: optional values, the
    outcome of an HTTP call, and the records the backend sends. */
module Basics {

  /** A value that JavaScript may leave `null` or `undefined`. */
  datatype Option<+T> = None | Some(value: T)

  /** What a component learns from one `fetch`: the response was ok and its
      JSON body parsed to `data`, the response was not ok, or the call threw
      (network failure, or a body that did not parse). */
  datatype Response<+T> = Ok(data: T) | NotOk | Thrown

  /** The logged-in user supplied by the authentication context. */
  datatype User = User(id: int, username: string)

  /** A catalog tag `{id, name}`. */
  datatype Tag = Tag(id: int, name: string)

  /** A post as the backend returns it: `author_name` is the author's display
      name (or username), `username` the author's login name. */
  datatype Post = Post(
    id: int,
    title: string,
    description: string,
    authorName: string,
    username: string,
    tags: seq<Tag>)

  /** `Array.prototype.reverse` as seen by a single render. */
  function Reverse<T>(s: seq<T>): (r: seq<T>)
    ensures |r| == |s|
    ensures forall i :: 0 <= i < |s| ==> r[i] == s[|s| - 1 - i]
  {
    if s == [] then [] else Reverse(s[1..]) + [s[0]]
  }

  lemma ReverseInvolution<T>(s: seq<T>)
    ensures Reverse(Reverse(s)) == s
  {
  }

  /** `${id}` for a route parameter that may be `undefined`. */
  function RouteText(id: Option<string>): string {
    match id
    case Some(s) => s
    case None => "undefined"
  }

  /** A client-side route `prefix` + `${id}`, such as `/showpost/${id}`. */
  function RoutePath(prefix: string, id: Option<string>): (r: string)
    ensures |r| >= |prefix| && r[..|prefix|] == prefix
    ensures RouteParam(prefix, r) == Some(RouteText(id))
  {
    var r := prefix + RouteText(id);
    assert r[..|prefix|] == prefix;
    r
  }

  /** The route parameter a location carries after `prefix`, if it starts
      with `prefix` at all. */
  function RouteParam(prefix: string, location: string): Option<string> {
    if |location| >= |prefix| && location[..|prefix|] == prefix then Some(location[|prefix|..]) else None
  }

  /** A location that carries a route parameter is the route built from it. */
  lemma RouteParamInverse(prefix: string, location: string)
    ensures RouteParam(prefix, location).Some? ==>
              RoutePath(prefix, Some(RouteParam(prefix, location).value)) == location
  {
    if RouteParam(prefix, location).Some? {
      assert location[..|prefix|] + location[|prefix|..] == location;
    }
  }
}

=== FILE: edit_post.dfy ===
/** The post editor (`EditPostForm`): loading a post and the tag catalog into
    the form, splitting the selected tags into catalog ids and new tag names,
    building the PUT body, and navigating once the update succeeds. */
module EditPost {
  import opened Basics

  /** A react-select option: `label` (here `name`) carries the tag name, `value` the tag id. */
  datatype TagOption = TagOption(name: string, value: int)

  /** The editor's state: the two text inputs (`None` once they hold
      `undefined`), the selection and the catalog. */
  datatype EditForm = EditForm(
    title: Option<string>,
    description: Option<string>,
    selected: seq<TagOption>,
    catalog: seq<TagOption>)

  /** The JSON body of `PUT /posts/:id`; `userId` is `None` when no user is
      logged in (`user?.id` is `undefined` and drops out of the JSON). */
  datatype PostUpdate = PostUpdate(
    title: Option<string>,
    description: Option<string>,
    userId: Option<int>,
    tagIds: seq<int>,
    newTags: seq<string>)

  /** The editor together with the router's current location. */
  datatype EditScreen = EditScreen(form: EditForm, location: string)

  /** The JSON body of `GET /posts/:id` as the loader reads it: a post has all
      three fields; an error body such as `{"error": ...}` has none of them. */
  datatype PostBody = PostBody(title: Option<string>, description: Option<string>, tags: Option<seq<Tag>>)

  /** The body the backend sends for a post. */
  function BodyOf(p: Post): PostBody {
    PostBody(Some(p.title), Some(p.description), Some(p.tags))
  }

  /** The form before anything has loaded (every `useState` initial value). */
  const EmptyForm := EditForm(Some(""), Some(""), [], [])

  // ---------------------------------------------------------------------
  // Options from tags
  // ---------------------------------------------------------------------

  /** `tags.map(tag => ({ label: tag.name, value: tag.id }))`. */
  function OptionsOf(tags: seq<Tag>): (r: seq<TagOption>)
    ensures |r| == |tags|
    ensures forall i :: 0 <= i < |tags| ==> r[i].name == tags[i].name && r[i].value == tags[i].id
  {
    if tags == [] then [] else [TagOption(tags[0].name, tags[0].id)] + OptionsOf(tags[1..])
  }

  /** The ids a catalog offers. */
  ghost function CatalogValues(catalog: seq<TagOption>): set<int> {
    set i | 0 <= i < |catalog| :: catalog[i].value
  }

  /** `availableTags.some(availableTag => availableTag.value === v)`. */
  function InCatalog(catalog: seq<TagOption>, v: int): (b: bool)
    ensures b <==> v in CatalogValues(catalog)
  {
    if catalog == [] then false
    else
      assert CatalogValues(catalog) == {catalog[0].value} + CatalogValues(catalog[1..]);
      catalog[0].value == v || InCatalog(catalog[1..], v)
  }

  // ---------------------------------------------------------------------
  // The split of the selection (the two `filter` calls)
  // ---------------------------------------------------------------------

  /** `selectedTags.filter(tag => availableTags.some(...) === known)`: the
      selected options whose value the catalog holds (`known`) or lacks
      (`!known`), in selection order. */
  function Split(selected: seq<TagOption>, catalog: seq<TagOption>, known: bool): (r: seq<TagOption>)
    ensures |r| <= |selected|
    ensures forall x :: x in r ==> x in selected && InCatalog(catalog, x.value) == known
  {
    if selected == [] then []
    else
      var n := |selected| - 1;
      var init := Split(selected[..n], catalog, known);
      if InCatalog(catalog, selected[n].value) == known then init + [selected[n]] else init
  }

  /** The indices into `selected` that `Split` keeps, in increasing order. */
  ghost function Positions(selected: seq<TagOption>, catalog: seq<TagOption>, known: bool): (p: seq<nat>)
    ensures forall k :: 0 <= k < |p| ==> p[k] < |selected|
  {
    if selected == [] then []
    else
      var n := |selected| - 1;
      var init := Positions(selected[..n], catalog, known);
      if InCatalog(catalog, selected[n].value) == known then init + [n] else init
  }

  function Labels(options: seq<TagOption>): (r: seq<string>)
    ensures |r| == |options|
  {
    seq(|options|, i requires 0 <= i < |options| => options[i].name)
  }

  function Values(options: seq<TagOption>): (r: seq<int>)
    ensures |r| == |options|
  {
    seq(|options|, i requires 0 <= i < |options| => options[i].value)
  }

  /** `newTags`: labels of the selected options whose value is not a catalog id. */
  function NewTags(selected: seq<TagOption>, catalog: seq<TagOption>): (r: seq<string>)
    ensures |r| <= |selected|
    ensures forall k :: 0 <= k < |r| ==>
              exists i :: 0 <= i < |selected| && selected[i].name == r[k] && !InCatalog(catalog, selected[i].value)
  {
    var kept := Split(selected, catalog, false);
    assert forall k :: 0 <= k < |kept| ==> kept[k] in kept;
    Labels(kept)
  }

  /** `existingTagIds`: values of the selected options that are catalog ids. */
  function ExistingTagIds(selected: seq<TagOption>, catalog: seq<TagOption>): (r: seq<int>)
    ensures |r| <= |selected|
    ensures forall k :: 0 <= k < |r| ==> r[k] in CatalogValues(catalog)
    ensures forall k :: 0 <= k < |r| ==> exists i :: 0 <= i < |selected| && selected[i].value == r[k]
  {
    var kept := Split(selected, catalog, true);
    assert forall k :: 0 <= k < |kept| ==> kept[k] in kept;
    Values(kept)
  }

  /** `Split` keeps exactly the options of the requested class, in selection
      order, duplicates included: its k-th element is the selection's element
      at the k-th index of that class. */
  lemma SplitIsOrderedFilter(selected: seq<TagOption>, catalog: seq<TagOption>, known: bool)
    ensures |Split(selected, catalog, known)| == |Positions(selected, catalog, known)|
    ensures forall k :: 0 <= k < |Positions(selected, catalog, known)| ==>
              Split(selected, catalog, known)[k] == selected[Positions(selected, catalog, known)[k]]
    ensures forall k, l :: 0 <= k < l < |Positions(selected, catalog, known)| ==>
              Positions(selected, catalog, known)[k] < Positions(selected, catalog, known)[l]
    ensures forall i :: 0 <= i < |selected| ==>
              (i in Positions(selected, catalog, known) <==> InCatalog(catalog, selected[i].value) == known)
  {
    SplitAtPositions(selected, catalog, known);
    PositionsIncrease(selected, catalog, known);
    PositionsOfClass(selected, catalog, known);
  }

  lemma {:induction false} SplitAtPositions(selected: seq<TagOption>, catalog: seq<TagOption>, known: bool)
    ensures |Split(selected, catalog, known)| == |Positions(selected, catalog, known)|
    ensures forall k :: 0 <= k < |Positions(selected, catalog, known)| ==>
              Split(selected, catalog, known)[k] == selected[Positions(selected, catalog, known)[k]]
  {
    if selected != [] {
      var n := |selected| - 1;
      var front := selected[..n];
      SplitAtPositions(front, catalog, known);
      var q := Positions(front, catalog, known);
      forall k | 0 <= k < |q|
        ensures Split(front, catalog, known)[k] == selected[q[k]]
      {
        assert front[q[k]] == selected[q[k]];
      }
    }
  }

  lemma {:induction false} PositionsIncrease(selected: seq<TagOption>, catalog: seq<TagOption>, known: bool)
    ensures forall k, l :: 0 <= k < l < |Positions(selected, catalog, known)| ==>
              Positions(selected, catalog, known)[k] < Positions(selected, catalog, known)[l]
  {
    if selected != [] {
      PositionsIncrease(selected[..|selected| - 1], catalog, known);
    }
  }

  lemma {:induction false} PositionsOfClass(selected: seq<TagOption>, catalog: seq<TagOption>, known: bool)
    ensures forall i :: 0 <= i < |selected| ==>
              (i in Positions(selected, catalog, known) <==> InCatalog(catalog, selected[i].value) == known)
  {
    if selected != [] {
      var n := |selected| - 1;
      var front := selected[..n];
      PositionsOfClass(front, catalog, known);
      var q := Positions(front, catalog, known);
      forall i | 0 <= i < |selected|
        ensures i in Positions(selected, catalog, known) <==> InCatalog(catalog, selected[i].value) == known
      {
        if i < n {
          assert front[i] == selected[i];
          assert n !in q;
        }
      }
    }
  }

  /** Every selected option lands in exactly one of the two outputs. */
  lemma {:induction false} SplitSizes(selected: seq<TagOption>, catalog: seq<TagOption>)
    ensures |Split(selected, catalog, true)| + |Split(selected, catalog, false)| == |selected|
  {
    if selected != [] {
      SplitSizes(selected[..|selected| - 1], catalog);
    }
  }

  // ---------------------------------------------------------------------
  // Properties of the two outputs
  // ---------------------------------------------------------------------

  /** `|newTags| + |existingTagIds| == |selectedTags|`. */
  lemma PartitionCoversSelection(selected: seq<TagOption>, catalog: seq<TagOption>)
    ensures |NewTags(selected, catalog)| + |ExistingTagIds(selected, catalog)| == |selected|
  {
    SplitSizes(selected, catalog);
  }

  /** Each index of the selection is classified on exactly one side. */
  lemma PartitionIsDisjoint(selected: seq<TagOption>, catalog: seq<TagOption>, i: nat)
    requires i < |selected|
    ensures (i in Positions(selected, catalog, true)) != (i in Positions(selected, catalog, false))
  {
    SplitIsOrderedFilter(selected, catalog, true);
    SplitIsOrderedFilter(selected, catalog, false);
  }

  /** The k-th new tag is the label of the k-th selected option whose value
      is not in the catalog; the k-th existing id is the value of the k-th
      selected option whose value is. */
  lemma OutputsFollowSelectionOrder(selected: seq<TagOption>, catalog: seq<TagOption>)
    ensures var p := Positions(selected, catalog, false);
            |NewTags(selected, catalog)| == |p|
            && forall k :: 0 <= k < |p| ==> NewTags(selected, catalog)[k] == selected[p[k]].name
    ensures var p := Positions(selected, catalog, true);
            |ExistingTagIds(selected, catalog)| == |p|
            && forall k :: 0 <= k < |p| ==> ExistingTagIds(selected, catalog)[k] == selected[p[k]].value
  {
    SplitIsOrderedFilter(selected, catalog, false);
    SplitIsOrderedFilter(selected, catalog, true);
  }

  /** Every id in `existingTagIds` is the value of some catalog entry. */
  lemma ExistingIdsComeFromCatalog(selected: seq<TagOption>, catalog: seq<TagOption>)
    ensures forall k :: 0 <= k < |ExistingTagIds(selected, catalog)| ==>
              exists j :: 0 <= j < |catalog| && catalog[j].value == ExistingTagIds(selected, catalog)[k]
  {
    var ids := ExistingTagIds(selected, catalog);
    forall k | 0 <= k < |ids|
      ensures exists j :: 0 <= j < |catalog| && catalog[j].value == ids[k]
    {
      assert ids[k] in CatalogValues(catalog);
      var j :| 0 <= j < |catalog| && catalog[j].value == ids[k];
    }
  }

  /** Every new tag is the label of a selected option whose value matches no
      catalog value. */
  lemma NewTagsAreUnknownLabels(selected: seq<TagOption>, catalog: seq<TagOption>)
    ensures forall k :: 0 <= k < |NewTags(selected, catalog)| ==>
              exists i :: 0 <= i < |selected| && selected[i].name == NewTags(selected, catalog)[k]
                          && forall j :: 0 <= j < |catalog| ==> catalog[j].value != selected[i].value
  {
    SplitIsOrderedFilter(selected, catalog, false);
    var p := Positions(selected, catalog, false);
    forall k | 0 <= k < |NewTags(selected, catalog)|
      ensures exists i :: 0 <= i < |selected| && selected[i].name == NewTags(selected, catalog)[k]
                          && forall j :: 0 <= j < |catalog| ==> catalog[j].value != selected[i].value
    {
      var i := p[k];
      assert i in p;
      forall j | 0 <= j < |catalog|
        ensures catalog[j].value != selected[i].value
      {
        assert catalog[j].value in CatalogValues(catalog);
      }
    }
  }

  /** Classification looks at `value` only: a selected option whose label
      equals a catalog entry's label but whose value is not a catalog id is
      still sent as a new tag. */
  lemma LabelCollisionStillNew(selected: seq<TagOption>, catalog: seq<TagOption>, i: nat, j: nat)
    requires i < |selected| && j < |catalog|
    requires catalog[j].name == selected[i].name
    requires forall m :: 0 <= m < |catalog| ==> catalog[m].value != selected[i].value
    ensures selected[i].name in NewTags(selected, catalog)
    ensures selected[i].value !in ExistingTagIds(selected, catalog)
  {
    OutputsFollowSelectionOrder(selected, catalog);
    SplitIsOrderedFilter(selected, catalog, false);
    ExistingIdsComeFromCatalog(selected, catalog);
    var p := Positions(selected, catalog, false);
    assert i in p;
    var k :| 0 <= k < |p| && p[k] == i;
    assert NewTags(selected, catalog)[k] == selected[i].name;
  }

  /** The outputs depend on the catalog only through its set of ids:
      catalog labels play no part. */
  lemma {:induction false} ClassificationByValueOnly(selected: seq<TagOption>, c1: seq<TagOption>, c2: seq<TagOption>)
    requires CatalogValues(c1) == CatalogValues(c2)
    ensures NewTags(selected, c1) == NewTags(selected, c2)
    ensures ExistingTagIds(selected, c1) == ExistingTagIds(selected, c2)
  {
    SplitSameValues(selected, c1, c2, true);
    SplitSameValues(selected, c1, c2, false);
  }

  lemma {:induction false} SplitSameValues(selected: seq<TagOption>, c1: seq<TagOption>, c2: seq<TagOption>, known: bool)
    requires CatalogValues(c1) == CatalogValues(c2)
    ensures Split(selected, c1, known) == Split(selected, c2, known)
  {
    if selected != [] {
      SplitSameValues(selected[..|selected| - 1], c1, c2, known);
    }
  }

  /** When every selected option is of one class, that side keeps the whole
      selection and the other side is empty. */
  lemma {:induction false} SplitOfOneClass(selected: seq<TagOption>, catalog: seq<TagOption>, known: bool)
    requires forall i :: 0 <= i < |selected| ==> InCatalog(catalog, selected[i].value) == known
    ensures Split(selected, catalog, known) == selected
    ensures Split(selected, catalog, !known) == []
  {
    if selected != [] {
      var n := |selected| - 1;
      SplitOfOneClass(selected[..n], catalog, known);
      assert selected[..n] + [selected[n]] == selected;
    }
  }

  /** When every selected value is a catalog id, no new tags are sent and the
      ids are the selection's values, in order. */
  lemma AllKnownMeansNoNewTags(selected: seq<TagOption>, catalog: seq<TagOption>)
    requires forall i :: 0 <= i < |selected| ==> selected[i].value in CatalogValues(catalog)
    ensures NewTags(selected, catalog) == []
    ensures ExistingTagIds(selected, catalog) == Values(selected)
  {
    SplitOfOneClass(selected, catalog, true);
  }

  /** With an empty catalog nothing is existing and every label is new. */
  lemma EmptyCatalogMeansAllNew(selected: seq<TagOption>)
    ensures ExistingTagIds(selected, []) == []
    ensures NewTags(selected, []) == Labels(selected)
  {
    SplitOfOneClass(selected, [], false);
  }

  // ---------------------------------------------------------------------
  // Loading, the PUT body and the submit outcome
  // ---------------------------------------------------------------------

  /** The load effect. `post` is the parsed body of `GET /posts/:id` (`None`
      when the call or the JSON parse threw) and `tags` that of `GET /tags`
      (`None` when it threw or was not an array). The loader never looks at
      `response.ok`: it copies the body's title and description, then maps its
      `tags`, which throws when the body has none, and only then asks for the
      catalog. */
  function LoadForm(form: EditForm, post: Option<PostBody>, tags: Option<seq<Tag>>): (r: EditForm)
    ensures post.None? ==> r == form
    ensures post.Some? ==> r.title == post.value.title && r.description == post.value.description
    ensures post.Some? && post.value.tags.None? ==> r.selected == form.selected
    ensures post.Some? && post.value.tags.Some? ==>
              |r.selected| == |post.value.tags.value|
              && forall i :: 0 <= i < |r.selected| ==>
                   r.selected[i].name == post.value.tags.value[i].name
                   && r.selected[i].value == post.value.tags.value[i].id
    ensures post.Some? && post.value.tags.Some? && tags.Some? ==>
              |r.catalog| == |tags.value|
              && forall i :: 0 <= i < |r.catalog| ==>
                   r.catalog[i].name == tags.value[i].name && r.catalog[i].value == tags.value[i].id
    ensures !(post.Some? && post.value.tags.Some? && tags.Some?) ==> r.catalog == form.catalog
  {
    match post
    case None => form
    case Some(body) =>
      var withText := form.(title := body.title, description := body.description);
      match body.tags
      case None => withText
      case Some(postTags) =>
        var withPost := withText.(selected := OptionsOf(postTags));
        match tags
        case None => withPost
        case Some(ts) => withPost.(catalog := OptionsOf(ts))
  }

  function Ids(tags: seq<Tag>): (r: seq<int>)
    ensures |r| == |tags|
  {
    seq(|tags|, i requires 0 <= i < |tags| => tags[i].id)
  }

  /** The body `submitHandler` sends: the two text fields as they stand, the
      user's id, and the two outputs of the split. */
  function UpdatePayload(form: EditForm, user: Option<User>): (p: PostUpdate)
    ensures p.title == form.title && p.description == form.description
    ensures p.userId.Some? <==> user.Some?
    ensures user.Some? ==> p.userId.value == user.value.id
    ensures p.tagIds == ExistingTagIds(form.selected, form.catalog)
    ensures p.newTags == NewTags(form.selected, form.catalog)
    ensures var known := Positions(form.selected, form.catalog, true);
            |p.tagIds| == |known|
            && forall k :: 0 <= k < |known| ==> p.tagIds[k] == form.selected[known[k]].value
    ensures var unknown := Positions(form.selected, form.catalog, false);
            |p.newTags| == |unknown|
            && forall k :: 0 <= k < |unknown| ==> p.newTags[k] == form.selected[unknown[k]].name
    ensures |p.tagIds| + |p.newTags| == |form.selected|
    ensures forall k :: 0 <= k < |p.tagIds| ==> p.tagIds[k] in CatalogValues(form.catalog)
  {
    OutputsFollowSelectionOrder(form.selected, form.catalog);
    PartitionCoversSelection(form.selected, form.catalog);
    PostUpdate(
      form.title,
      form.description,
      match user case None => None case Some(u) => Some(u.id),
      ExistingTagIds(form.selected, form.catalog),
      NewTags(form.selected, form.catalog))
  }

  /** Submitting a freshly loaded form whose tags the catalog knows sends
      the post's own title, description and tag ids, in order, and no new
      tags. */
  lemma ResubmitLoadedTags(form: EditForm, post: Post, tags: seq<Tag>, user: Option<User>)
    requires forall i :: 0 <= i < |post.tags| ==> exists j :: 0 <= j < |tags| && tags[j].id == post.tags[i].id
    ensures var p := UpdatePayload(LoadForm(form, Some(BodyOf(post)), Some(tags)), user);
            p.tagIds == Ids(post.tags) && p.newTags == []
            && p.title == Some(post.title) && p.description == Some(post.description)
  {
    var f := LoadForm(form, Some(BodyOf(post)), Some(tags));
    forall i | 0 <= i < |f.selected|
      ensures f.selected[i].value in CatalogValues(f.catalog)
    {
      var j :| 0 <= j < |tags| && tags[j].id == post.tags[i].id;
      assert f.catalog[j].value == f.selected[i].value;
    }
    AllKnownMeansNoNewTags(f.selected, f.catalog);
    assert Values(f.selected) == Ids(post.tags);
  }

  /** When `GET /tags` fails the catalog stays empty, so submitting a freshly
      loaded post sends none of its tags by id and every one of them as a new
      tag, by name. */
  lemma FailedCatalogResubmitsNames(post: Post, user: Option<User>)
    ensures var p := UpdatePayload(LoadForm(EmptyForm, Some(BodyOf(post)), None), user);
            p.tagIds == []
            && |p.newTags| == |post.tags|
            && forall i :: 0 <= i < |post.tags| ==> p.newTags[i] == post.tags[i].name
  {
    var f := LoadForm(EmptyForm, Some(BodyOf(post)), None);
    EmptyCatalogMeansAllNew(f.selected);
  }

  /** A non-ok reply with a JSON error body still runs the first two setters:
      the title and description become `undefined` and the tag mapping then
      throws, so the selection and catalog stay empty and a later submit
      sends no title, no description and no tags. */
  lemma ErrorBodyUndefinesText(user: Option<User>, tags: Option<seq<Tag>>)
    ensures var f := LoadForm(EmptyForm, Some(PostBody(None, None, None)), tags);
            f == EditForm(None, None, [], [])
            && var p := UpdatePayload(f, user);
               p.title == None && p.description == None && p.tagIds == [] && p.newTags == []
  {
  }

  const ShowPostPrefix := "/showpost/"

  /** `/showpost/${id}`: reading the route parameter back gives `${id}`. */
  function ShowPostPath(id: Option<string>): (r: string)
    ensures RouteParam(ShowPostPrefix, r) == Some(RouteText(id))
  {
    RoutePath(ShowPostPrefix, id)
  }

  /** The route parameter a `/showpost/` location carries. */
  function ShowPostRouteOf(location: string): (r: Option<string>)
    ensures r.Some? ==> ShowPostPath(Some(r.value)) == location
  {
    RouteParamInverse(ShowPostPrefix, location);
    RouteParam(ShowPostPrefix, location)
  }

  /** The effect of the PUT's outcome: navigate to the post only on an ok
      response; a non-ok response or a thrown error changes nothing. */
  function AfterUpdate(screen: EditScreen, id: Option<string>, response: Response<()>): (r: EditScreen)
    ensures r.form == screen.form
    ensures r.location != screen.location ==> response.Ok?
    ensures response.Ok? ==> ShowPostRouteOf(r.location) == Some(RouteText(id))
    ensures !response.Ok? ==> r == screen
  {
    if response.Ok? then screen.(location := ShowPostPath(id)) else screen
  }

  /** A worked example: catalog [{1,"go"}] and selection
      [{1,"go"}, {2,"rust"}] give tag_ids [1] and new_tags ["rust"]. */
  lemma GoRustExample()
    ensures var catalog := [TagOption("go", 1)];
            var selected := [TagOption("go", 1), TagOption("rust", 2)];
            ExistingTagIds(selected, catalog) == [1] && NewTags(selected, catalog) == ["rust"]
  {
    var catalog := [TagOption("go", 1)];
    var selected := [TagOption("go", 1), TagOption("rust", 2)];
    assert selected[..1] == [TagOption("go", 1)];
    assert InCatalog(catalog, 1);
    assert !InCatalog(catalog, 2);
  }
}

=== FILE: js_text.dfy ===
/** The two pieces of JavaScript string behaviour the views rely on:
    `String.prototype.trim` and the rendering of an integer inside a template
    literal (`${id}`), with a parser that inverts the latter. */
module JsText {
  import opened Basics

  /** The code points `trim` removes: the WhiteSpace and LineTerminator
      productions of ECMA-262 (tab, vertical tab, form feed, space, no-break
      space, byte order mark, the other Unicode space separators, line feed,
      carriage return, line separator, paragraph separator). */
  const TrimmableChars: set<char> := {
    '\t', '\U{000B}', '\U{000C}', ' ', '\U{00A0}', '\U{FEFF}',
    '\U{1680}', '\U{2000}', '\U{2001}', '\U{2002}', '\U{2003}', '\U{2004}',
    '\U{2005}', '\U{2006}', '\U{2007}', '\U{2008}', '\U{2009}', '\U{200A}',
    '\U{202F}', '\U{205F}', '\U{3000}',
    '\n', '\r', '\U{2028}', '\U{2029}'
  }

  predicate IsTrimmable(c: char) {
    c in TrimmableChars
  }

  predicate AllTrimmable(s: string) {
    forall i :: 0 <= i < |s| ==> IsTrimmable(s[i])
  }

  /** Neither end of `s` can be trimmed any further. */
  predicate IsTrimmed(s: string) {
    s == [] || (!IsTrimmable(s[0]) && !IsTrimmable(s[|s| - 1]))
  }

  /** `trimStart`: the suffix left after dropping the leading trimmable run. */
  function TrimStart(s: string): (r: string)
    ensures |r| <= |s| && r == s[|s| - |r|..]
    ensures AllTrimmable(s[..|s| - |r|])
    ensures r == [] || !IsTrimmable(r[0])
  {
    if |s| > 0 && IsTrimmable(s[0]) then
      var r := TrimStart(s[1..]);
      assert s[..|s| - |r|] == [s[0]] + s[1..][..|s| - 1 - |r|];
      r
    else
      s
  }

  /** `trimEnd`: the prefix left after dropping the trailing trimmable run. */
  function TrimEnd(s: string): (r: string)
    ensures |r| <= |s| && r == s[..|r|]
    ensures AllTrimmable(s[|r|..])
    ensures r == [] || !IsTrimmable(r[|r| - 1])
  {
    if |s| > 0 && IsTrimmable(s[|s| - 1]) then
      var r := TrimEnd(s[..|s| - 1]);
      assert s[|r|..] == s[..|s| - 1][|r|..] + [s[|s| - 1]];
      r
    else
      s
  }

  /** `r` sits in `s` at offset `i` with only trimmable characters before
      and after it. */
  predicate FramedInfix(s: string, r: string, i: int) {
    0 <= i && i + |r| <= |s| && r == s[i..i + |r|]
    && AllTrimmable(s[..i]) && AllTrimmable(s[i + |r|..])
  }

  /** `String.prototype.trim`: the infix of `s` obtained by removing the
      trimmable runs at both ends. */
  function Trim(s: string): (r: string)
    ensures IsTrimmed(r) && |r| <= |s|
    ensures exists i :: FramedInfix(s, r, i)
  {
    var t := TrimStart(s);
    var i := |s| - |t|;
    var r := TrimEnd(t);
    TrimBothEnds(s, t, r, i);
    r
  }

  /** Cutting a trimmable run off the front of `s` (leaving `t`) and then
      one off the back of `t` (leaving `r`) leaves a trimmed infix of `s`
      framed by trimmable runs. */
  lemma TrimBothEnds(s: string, t: string, r: string, i: nat)
    requires i <= |s| && t == s[i..] && AllTrimmable(s[..i]) && (t == [] || !IsTrimmable(t[0]))
    requires |r| <= |t| && r == t[..|r|] && AllTrimmable(t[|r|..]) && (r == [] || !IsTrimmable(r[|r| - 1]))
    ensures IsTrimmed(r) && FramedInfix(s, r, i)
  {
    InfixOfInfix(s, t, r, i);
    if r != [] {
      assert r[0] == t[0];
    }
  }

  lemma InfixOfInfix(s: string, t: string, r: string, i: nat)
    requires i <= |s| && t == s[i..] && |r| <= |t| && r == t[..|r|]
    ensures r == s[i..i + |r|] && s[i + |r|..] == t[|r|..]
  {
  }

  /** The framed, trimmed infix is unique, so the two clauses of `Trim`'s
      contract determine its result: any trimmed string framed in `s` by
      trimmable runs is `Trim(s)`. */
  lemma TrimCharacterised(s: string, r: string, i: int)
    requires IsTrimmed(r) && FramedInfix(s, r, i)
    ensures r == Trim(s)
  {
    var j :| FramedInfix(s, Trim(s), j);
    FramedTrimmedUnique(s, r, i, Trim(s), j);
  }

  lemma FramedTrimmedUnique(s: string, r1: string, i1: int, r2: string, i2: int)
    requires IsTrimmed(r1) && FramedInfix(s, r1, i1)
    requires IsTrimmed(r2) && FramedInfix(s, r2, i2)
    ensures r1 == r2
  {
    if r1 != [] && r2 != [] {
      FramedStart(s, r1, i1, r2, i2);
      FramedStart(s, r2, i2, r1, i1);
      FramedEnd(s, r1, i1, r2, i2);
      FramedEnd(s, r2, i2, r1, i1);
    } else if r1 != [] {
      NothingVisibleOutside(s, r2, i2, i1);
    } else if r2 != [] {
      NothingVisibleOutside(s, r1, i1, i2);
    }
  }

  /** The first character of a non-empty trimmed framed infix cannot lie in
      another one's leading trimmable run. */
  lemma FramedStart(s: string, r1: string, i1: int, r2: string, i2: int)
    requires IsTrimmed(r1) && FramedInfix(s, r1, i1) && r1 != []
    requires FramedInfix(s, r2, i2)
    ensures i2 <= i1
  {
    assert s[i1] == r1[0];
  }

  lemma FramedEnd(s: string, r1: string, i1: int, r2: string, i2: int)
    requires IsTrimmed(r1) && FramedInfix(s, r1, i1) && r1 != []
    requires FramedInfix(s, r2, i2)
    ensures i1 + |r1| <= i2 + |r2|
  {
    assert s[i1 + |r1| - 1] == r1[|r1| - 1];
  }

  /** An empty framed infix leaves no visible character anywhere in `s`, so a
      non-empty trimmed one (starting at `k`) cannot coexist with it. */
  lemma NothingVisibleOutside(s: string, r: string, i: int, k: int)
    requires r == [] && FramedInfix(s, r, i)
    requires 0 <= k < |s|
    ensures IsTrimmable(s[k])
  {
    if k < i {
      assert s[..i][k] == s[k];
    } else {
      assert s[i..][k - i] == s[k];
    }
  }

  /** A string made only of trimmable characters trims to the empty string. */
  lemma TrimAllTrimmable(s: string)
    requires AllTrimmable(s)
    ensures Trim(s) == ""
  {
  }

  /** A string that is already trimmed is left unchanged. */
  lemma TrimOfTrimmed(s: string)
    requires IsTrimmed(s)
    ensures Trim(s) == s
  {
  }

  /** Trimming twice is trimming once. */
  lemma TrimIdempotent(s: string)
    ensures Trim(Trim(s)) == Trim(s)
  {
  }

  /** Trimming keeps every non-trimmable character: the result is empty
      exactly when the whole string is trimmable. */
  lemma TrimEmptyIff(s: string)
    ensures Trim(s) == "" <==> AllTrimmable(s)
  {
  }

  // ---------------------------------------------------------------------
  // Integers in template literals
  // ---------------------------------------------------------------------

  predicate IsDigit(c: char) {
    '0' <= c <= '9'
  }

  predicate AllDigits(s: string) {
    forall i :: 0 <= i < |s| ==> IsDigit(s[i])
  }

  function DigitChar(d: nat): (c: char)
    requires d < 10
    ensures IsDigit(c)
  {
    "0123456789"[d]
  }

  function DigitValue(c: char): (d: nat)
    requires IsDigit(c)
    ensures d < 10 && DigitChar(d) == c
  {
    (c as int - '0' as int) as nat
  }

  /** Decimal digits of `n` with no leading zero, as `${n}` prints it. */
  function NatToString(n: nat): (r: string)
    ensures |r| > 0 && AllDigits(r)
    ensures r[0] == '0' ==> n == 0 && |r| == 1
  {
    if n < 10 then [DigitChar(n)] else NatToString(n / 10) + [DigitChar(n % 10)]
  }

  /** `${n}` for an integer `n`: a minus sign before the digits of a
      negative number. */
  function IntToString(n: int): (r: string)
    ensures |r| > 0
    ensures r[0] == '-' <==> n < 0
    ensures n >= 0 ==> AllDigits(r) && (r[0] == '0' ==> r == "0")
    ensures n < 0 ==> |r| > 1 && AllDigits(r[1..]) && r[1] != '0'
  {
    if n < 0 then "-" + NatToString(-n) else NatToString(n)
  }

  /** The value of a string of decimal digits. */
  function ParseDigits(s: string): nat
    requires AllDigits(s)
  {
    if s == [] then 0 else ParseDigits(s[..|s| - 1]) * 10 + DigitValue(s[|s| - 1])
  }

  /** Digits with no leading zero (a lone "0" aside). */
  predicate IsCanonicalDigits(s: string) {
    |s| > 0 && AllDigits(s) && (s[0] == '0' ==> |s| == 1)
  }

  /** Reads back an integer written the way `${n}` writes one: canonical
      digits, optionally after a minus sign that is not followed by a zero.
      `None` for anything else. */
  function ParseInt(s: string): (r: Option<int>)
    ensures r.Some? ==> |s| > 0
  {
    if |s| > 1 && s[0] == '-' && IsCanonicalDigits(s[1..]) && s[1] != '0' then Some(-(ParseDigits(s[1..]) as int))
    else if IsCanonicalDigits(s) then Some(ParseDigits(s))
    else None
  }

  lemma {:induction false} ParseNatToString(n: nat)
    ensures ParseDigits(NatToString(n)) == n
  {
    if n >= 10 {
      var s := NatToString(n);
      var p := NatToString(n / 10);
      assert s[..|s| - 1] == p;
      ParseNatToString(n / 10);
    }
  }

  /** Printing an integer and reading it back gives the integer. */
  lemma {:induction false} ParseIntToString(n: int)
    ensures ParseInt(IntToString(n)) == Some(n)
  {
    if n < 0 {
      assert IntToString(n) == "-" + NatToString(-n);
      ParseNegative(-n);
    } else {
      assert IntToString(n) == NatToString(n);
      ParseNonNegative(n);
    }
  }

  lemma ParseNonNegative(n: nat)
    ensures ParseInt(NatToString(n)) == Some(n)
  {
    var s := NatToString(n);
    assert IsCanonicalDigits(s);
    ParseNatToString(n);
  }

  lemma ParseNegative(m: nat)
    requires m > 0
    ensures ParseInt("-" + NatToString(m)) == Some(-(m as int))
  {
    var digits := NatToString(m);
    var s := "-" + digits;
    assert s[1..] == digits;
    assert IsCanonicalDigits(digits) && digits[0] != '0';
    ParseNatToString(m);
  }

  /** Canonical digits that do not start with a zero have a positive value. */
  lemma {:induction false} ParseDigitsPositive(s: string)
    requires IsCanonicalDigits(s) && s[0] != '0'
    ensures ParseDigits(s) > 0
  {
    if |s| > 1 {
      var p := s[..|s| - 1];
      assert p[0] == s[0];
      ParseDigitsPositive(p);
    } else {
      assert DigitChar(DigitValue(s[0])) == s[0];
    }
  }

  /** Canonical digits are exactly how their value prints. */
  lemma {:induction false} NatToStringOfParse(s: string)
    requires IsCanonicalDigits(s)
    ensures NatToString(ParseDigits(s)) == s
  {
    var c := s[|s| - 1];
    if |s| == 1 {
      assert NatToString(DigitValue(c)) == [c];
    } else {
      var p := s[..|s| - 1];
      assert p[0] == s[0];
      ParseDigitsPositive(p);
      NatToStringOfParse(p);
      var m := ParseDigits(p);
      var d := DigitValue(c);
      assert ParseDigits(s) == m * 10 + d;
      assert (m * 10 + d) / 10 == m && (m * 10 + d) % 10 == d;
      assert s == p + [c];
    }
  }

  /** The parser accepts only what the printer writes: whatever reads back as
      `n` is the printed form of `n`. */
  lemma ParseIntCanonical(s: string, n: int)
    requires ParseInt(s) == Some(n)
    ensures s == IntToString(n)
  {
    if |s| > 1 && s[0] == '-' && IsCanonicalDigits(s[1..]) && s[1] != '0' {
      ParseDigitsPositive(s[1..]);
      NatToStringOfParse(s[1..]);
      assert s == "-" + s[1..];
    } else {
      NatToStringOfParse(s);
    }
  }
}

=== FILE: profile.dfy ===
/** The profile editor (`UserDataForm`): the display name and bio it sends,
    how a save's response changes the form, and what the page shows. */
module Profile {
  import opened Basics
  import opened JsText

  /** The form's local `{authorname, bio}`. Either can become `null`, since
      both are overwritten with whatever the server returns. */
  datatype ProfileState = ProfileState(authorname: Option<string>, bio: Option<string>)

  /** The `user_data` object of `PUT /user_datum`; a `None` name is sent as
      `null` (or dropped, when it is `undefined`). */
  datatype ProfileRequest = ProfileRequest(authorname: Option<string>, bio: Option<string>)

  /** What a save's response does: the new local state, and whether the
      user's post list is fetched again. */
  datatype SaveEffect = SaveEffect(state: ProfileState, refetchPosts: bool)

  /** The "My Posts" block shown to a logged-in user. */
  datatype PostsSection = NoPostsYet | Listed(posts: seq<Post>)

  /** The form before the mount-time fetch has answered. */
  const InitialState := ProfileState(Some(""), Some(""))

  const NoBioText := "No Bio Yet"

  /** JavaScript truthiness of a string that may be `null`. */
  predicate Truthy(s: Option<string>) {
    s.Some? && s.value != ""
  }

  /** `authorname ? authorname.trim() : (user && user.username)`: a truthy
      name is trimmed (the test comes first, so a blank name still counts as
      given), any other name falls back to the username, or to nothing when
      nobody is logged in. */
  function SubmittedName(authorname: Option<string>, user: Option<User>): (r: Option<string>)
    ensures Truthy(authorname) ==> r.Some? && IsTrimmed(r.value) && |r.value| <= |authorname.value|
    ensures Truthy(authorname) ==> exists i :: FramedInfix(authorname.value, r.value, i)
    ensures !Truthy(authorname) ==> (r.Some? <==> user.Some?)
    ensures !Truthy(authorname) && user.Some? ==> r.value == user.value.username
  {
    if Truthy(authorname) then Some(Trim(authorname.value))
    else match user
      case None => None
      case Some(u) => Some(u.username)
  }

  /** The body `handleSubmit` sends: the resolved name and the bio as typed. */
  function SaveRequest(state: ProfileState, user: Option<User>): (r: ProfileRequest)
    ensures r.bio == state.bio
    ensures r.authorname == SubmittedName(state.authorname, user)
  {
    ProfileRequest(SubmittedName(state.authorname, user), state.bio)
  }

  /** An ok response replaces the local name and bio with the server's and
      refreshes the post list; a non-ok response or a thrown error leaves the
      form exactly as the user left it. */
  function AfterSave(state: ProfileState, response: Response<ProfileState>): (e: SaveEffect)
    ensures e.refetchPosts <==> response.Ok?
    ensures response.Ok? ==> e.state == response.data
    ensures !response.Ok? ==> e.state == state
  {
    match response
    case Ok(data) => SaveEffect(data, true)
    case NotOk => SaveEffect(state, false)
    case Thrown => SaveEffect(state, false)
  }

  /** `bio || "No Bio Yet"`. */
  function DisplayedBio(bio: Option<string>): (r: string)
    ensures r != ""
    ensures Truthy(bio) ==> r == bio.value
    ensures !Truthy(bio) ==> r == NoBioText
  {
    if Truthy(bio) then bio.value else NoBioText
  }

  /** The "My Posts" block of one render: absent without a user, a notice
      for an empty list, otherwise the fetched posts newest-first. */
  function PostsSectionOf(user: Option<User>, posts: seq<Post>): (r: Option<PostsSection>)
    ensures r.Some? <==> user.Some?
    ensures r == Some(NoPostsYet) <==> user.Some? && posts == []
    ensures r.Some? && r.value.Listed? ==>
              |r.value.posts| == |posts| && forall i :: 0 <= i < |posts| ==> r.value.posts[i] == posts[|posts| - 1 - i]
  {
    if user.None? then None
    else if |posts| > 0 then Some(Listed(Reverse(posts)))
    else Some(NoPostsYet)
  }

  // ---------------------------------------------------------------------
  // Properties of the submitted name
  // ---------------------------------------------------------------------

  /** A blank (or `null`) name of a logged-in user is sent as the username. */
  lemma EmptyNameSendsUsername(authorname: Option<string>, bio: Option<string>, user: User)
    requires authorname == Some("") || authorname == None
    ensures SaveRequest(ProfileState(authorname, bio), Some(user)).authorname == Some(user.username)
  {
  }

  /** A blank name with nobody logged in sends no name at all. */
  lemma EmptyNameWithoutUserSendsNothing(authorname: Option<string>, bio: Option<string>)
    requires !Truthy(authorname)
    ensures SaveRequest(ProfileState(authorname, bio), None).authorname == None
  {
  }

  /** A whitespace-only name is truthy, so it is trimmed to `""` and the
      username is not used, whoever is logged in. */
  lemma WhitespaceNameSendsEmpty(name: string, user: Option<User>)
    requires name != "" && AllTrimmable(name)
    ensures SubmittedName(Some(name), user) == Some("")
  {
    TrimAllTrimmable(name);
  }

  /** A name with visible characters is sent as the non-empty string left
      when the whitespace at both ends is cut off (the framed trimmed infix,
      which `TrimCharacterised` shows is unique); one already trimmed is
      sent unchanged. */
  lemma VisibleNameSendsTrimmed(name: string, user: Option<User>)
    requires !AllTrimmable(name)
    ensures var r := SubmittedName(Some(name), user);
            r.Some? && r.value != "" && IsTrimmed(r.value)
            && (exists i :: FramedInfix(name, r.value, i))
    ensures IsTrimmed(name) ==> SubmittedName(Some(name), user) == Some(name)
  {
    TrimEmptyIff(name);
    if IsTrimmed(name) {
      TrimOfTrimmed(name);
    }
  }

  /** Saving twice with a server that echoes the request sends the same name
      the second time, unless the first name was blank but truthy: that one
      comes back as `""` and is replaced by the username on the next save.
      (A username with surrounding blanks would be trimmed on the second
      save, so usernames are taken to be trimmed.) */
  lemma EchoedSaveIsStable(state: ProfileState, user: Option<User>)
    requires Truthy(state.authorname) ==> !AllTrimmable(state.authorname.value)
    requires user.Some? ==> IsTrimmed(user.value.username)
    ensures var first := SaveRequest(state, user);
            var echoed := AfterSave(state, Ok(ProfileState(first.authorname, first.bio))).state;
            SaveRequest(echoed, user) == first
  {
    if Truthy(state.authorname) {
      var name := state.authorname.value;
      TrimEmptyIff(name);
      TrimIdempotent(name);
    } else if user.Some? {
      TrimOfTrimmed(user.value.username);
    }
  }

  /** The exception to `EchoedSaveIsStable`: a blank but non-empty name is
      sent as "" and, once echoed, the next save sends the username. */
  lemma BlankNameFlipsToUsername(name: string, bio: Option<string>, user: User)
    requires name != "" && AllTrimmable(name)
    ensures var first := SaveRequest(ProfileState(Some(name), bio), Some(user));
            first.authorname == Some("")
            && SaveRequest(ProfileState(first.authorname, first.bio), Some(user)).authorname == Some(user.username)
  {
    WhitespaceNameSendsEmpty(name, Some(user));
  }

  /** Before the mount-time fetch answers, the page shows "No Bio Yet" and a
      save by a logged-in user sends the username and an empty bio. */
  lemma FreshFormFallsBack(user: User)
    ensures DisplayedBio(InitialState.bio) == NoBioText
    ensures SaveRequest(InitialState, Some(user)) == ProfileRequest(Some(user.username), Some(""))
  {
  }

  /** The name a truthy entry sends is determined: any trimmed string framed
      in the entry by whitespace is exactly what is sent. */
  lemma SentNameIsTheTrimmedEntry(name: string, user: Option<User>, sent: string, i: int)
    requires name != ""
    requires IsTrimmed(sent) && FramedInfix(name, sent, i)
    ensures SubmittedName(Some(name), user) == Some(sent)
  {
    TrimCharacterised(name, sent, i);
  }

  /** After an ok save the page shows the server's bio, not the typed one. */
  lemma ShownBioFollowsServer(state: ProfileState, data: ProfileState)
    ensures DisplayedBio(AfterSave(state, Ok(data)).state.bio) == DisplayedBio(data.bio)
    ensures DisplayedBio(AfterSave(state, NotOk).state.bio) == DisplayedBio(state.bio)
  {
  }
}

=== FILE: show_post.dfy ===
/** The post page (`ShowPost`): one render of a post, its author link, its
    tag links, the actions gated on the viewer, and its comments. */
module PostPage {
  import opened Basics
  import opened JsText

  /** A comment as far as this page is concerned: it is handed on whole to
      the comment view. */
  datatype Comment = Comment(id: int, body: string)

  /** A clickable tag: its name and the location a click navigates to. */
  datatype TagLink = TagLink(name: string, target: string)

  /** What one render produces. `editLink` is the edit route; the delete,
      favourite and comment-form controls carry the post id they are given. */
  datatype PostView =
    | NoPostFound
    | PostView(
        title: string,
        authorLabel: string,
        authorLink: string,
        tagLinks: seq<TagLink>,
        description: string,
        editLink: Option<string>,
        deleteControl: Option<int>,
        favouriteButton: Option<int>,
        commentForm: Option<int>,
        loginPrompt: bool,
        comments: seq<Comment>)

  const TagUrlPrefix := "/categories?tagId="
  const UserDataPath := "/user-data"
  const UserPathPrefix := "/user/"
  const EditPathPrefix := "/editpost/"

  /** Whether a render shows any control that acts on the post. */
  predicate ShowsAction(v: PostView) {
    v.PostView? &&
    (v.editLink.Some? || v.deleteControl.Some? || v.favouriteButton.Some? || v.commentForm.Some?)
  }

  // ---------------------------------------------------------------------
  // Tag links
  // ---------------------------------------------------------------------

  /** `handleTag(id)` navigates to `/categories?tagId=${id}`, a location that
      selects exactly the tag it was built for. */
  function TagUrl(id: int): (r: string)
    ensures |r| > |TagUrlPrefix| && r[..|TagUrlPrefix|] == TagUrlPrefix
    ensures TagIdOf(r) == Some(id)
  {
    var r := TagUrlPrefix + IntToString(id);
    assert r[..|TagUrlPrefix|] == TagUrlPrefix;
    assert r[|TagUrlPrefix|..] == IntToString(id);
    ParseIntToString(id);
    r
  }

  /** The tag id a `/categories?tagId=` location selects, if any. */
  function TagIdOf(url: string): Option<int> {
    if |url| >= |TagUrlPrefix| && url[..|TagUrlPrefix|] == TagUrlPrefix
    then ParseInt(url[|TagUrlPrefix|..])
    else None
  }

  /** Distinct tags get distinct links. */
  lemma TagUrlInjective(a: int, b: int)
    requires TagUrl(a) == TagUrl(b)
    ensures a == b
  {
  }

  /** The only location that selects a tag is the one built for it: no other
      spelling of the id (a leading zero, `-0`) is produced or accepted. */
  lemma TagUrlCanonical(url: string, id: int)
    requires TagIdOf(url) == Some(id)
    ensures url == TagUrl(id)
  {
    var rest := url[|TagUrlPrefix|..];
    ParseIntCanonical(rest, id);
    assert url == url[..|TagUrlPrefix|] + rest;
  }

  /** `post.tags.map(tag => <span onClick={() => handleTag(tag.id)}>)`: one
      link per tag, in order, each selecting its own tag. */
  function TagLinksOf(tags: seq<Tag>): (r: seq<TagLink>)
    ensures |r| == |tags|
    ensures forall i :: 0 <= i < |tags| ==>
              r[i].name == tags[i].name && TagIdOf(r[i].target) == Some(tags[i].id)
  {
    if tags == [] then []
    else
      [TagLink(tags[0].name, TagUrl(tags[0].id))] + TagLinksOf(tags[1..])
  }

  // ---------------------------------------------------------------------
  // Author link and action gates
  // ---------------------------------------------------------------------

  /** The "Posted by" link: the viewer's own profile page when the viewer's
      username is the post's, otherwise the author's public page. */
  function AuthorLink(user: Option<User>, post: Post): (r: string)
    ensures r == UserDataPath <==> user.Some? && user.value.username == post.username
    ensures r != UserDataPath ==> r == UserPathPrefix + post.username
  {
    if user.None? || user.value.username != post.username then
      var r := UserPathPrefix + post.username;
      assert r[5] != UserDataPath[5];
      r
    else UserDataPath
  }

  /** `user && authorname === post.author_name`: the gate for both the edit
      link and the delete control. It compares the viewer's fetched display
      name, not the username. */
  function MayEdit(user: Option<User>, authorname: Option<string>, post: Post): (b: bool)
    ensures b ==> user.Some? && authorname.Some? && authorname.value == post.authorName
    ensures user.Some? && authorname == Some(post.authorName) ==> b
  {
    user.Some? && authorname == Some(post.authorName)
  }

  /** `/editpost/${id}`: reading the route parameter back gives `${id}`. */
  function EditPath(id: Option<string>): (r: string)
    ensures RouteParam(EditPathPrefix, r) == Some(RouteText(id))
  {
    RoutePath(EditPathPrefix, id)
  }

  /** One render of the page. `authorname` is the viewer's display name as
      last fetched (`Some("")` before the fetch, `None` when the server sent
      `null`); `post` is `None` until a post has loaded. */
  function Render(user: Option<User>, authorname: Option<string>, post: Option<Post>,
                  id: Option<string>, comments: seq<Comment>): (v: PostView)
    ensures v.NoPostFound? <==> post.None?
    ensures v.PostView? ==> (v.editLink.Some? <==> user.Some? && authorname == Some(post.value.authorName))
    ensures v.PostView? ==> (v.deleteControl.Some? <==> v.editLink.Some?)
    ensures v.PostView? ==> (v.favouriteButton.Some? <==> user.Some?)
    ensures v.PostView? ==> (v.commentForm.Some? <==> user.Some?)
    ensures v.PostView? ==> (v.loginPrompt <==> user.None?)
    ensures v.PostView? ==> (v.authorLink == UserDataPath <==> user.Some? && user.value.username == post.value.username)
    ensures v.PostView? ==> v.authorLink == AuthorLink(user, post.value)
    ensures v.PostView? && v.authorLink != UserDataPath ==> v.authorLink == UserPathPrefix + post.value.username
    ensures v.PostView? ==> v.title == post.value.title && v.authorLabel == post.value.authorName
                            && v.description == post.value.description
    ensures v.PostView? && v.favouriteButton.Some? ==> v.favouriteButton.value == post.value.id
    ensures v.PostView? && v.commentForm.Some? ==> v.commentForm.value == post.value.id
    ensures v.PostView? ==> |v.tagLinks| == |post.value.tags|
    ensures v.PostView? ==> forall i :: 0 <= i < |post.value.tags| ==>
              v.tagLinks[i].name == post.value.tags[i].name
              && TagIdOf(v.tagLinks[i].target) == Some(post.value.tags[i].id)
    ensures v.PostView? && v.editLink.Some? ==> v.editLink.value == EditPath(id)
    ensures v.PostView? && v.deleteControl.Some? ==> v.deleteControl.value == post.value.id
    ensures v.PostView? ==> |v.comments| == |comments|
    ensures v.PostView? ==> forall i :: 0 <= i < |comments| ==> v.comments[i] == comments[|comments| - 1 - i]
  {
    match post
    case None => NoPostFound
    case Some(p) =>
      var editor := MayEdit(user, authorname, p);
      PostView(
        p.title,
        p.authorName,
        AuthorLink(user, p),
        TagLinksOf(p.tags),
        p.description,
        if editor then Some(EditPath(id)) else None,
        if editor then Some(p.id) else None,
        if user.Some? then Some(p.id) else None,
        if user.Some? then Some(p.id) else None,
        user.None?,
        Reverse(comments))
  }

  // ---------------------------------------------------------------------
  // Properties of a render
  // ---------------------------------------------------------------------

  /** Without a post the page is "No Post Found" and offers no action. */
  lemma NoPostNoActions(user: Option<User>, authorname: Option<string>, id: Option<string>, comments: seq<Comment>)
    ensures Render(user, authorname, None, id, comments) == NoPostFound
    ensures !ShowsAction(Render(user, authorname, None, id, comments))
  {
  }

  /** Exactly one of the comment form and the login prompt is shown. */
  lemma CommentFormXorLoginPrompt(user: Option<User>, authorname: Option<string>, post: Post,
                                  id: Option<string>, comments: seq<Comment>)
    ensures var v := Render(user, authorname, Some(post), id, comments);
            v.commentForm.Some? != v.loginPrompt
  {
  }

  /** The favourite button does not depend on authorship: two viewers with
      different display names see the same button. */
  lemma FavouriteIgnoresAuthorship(user: Option<User>, a1: Option<string>, a2: Option<string>, post: Post,
                                   id: Option<string>, comments: seq<Comment>)
    ensures Render(user, a1, Some(post), id, comments).favouriteButton
         == Render(user, a2, Some(post), id, comments).favouriteButton
  {
  }

  /** Anyone who sees the edit controls also sees the favourite button and
      the comment form: the gate implies a logged-in viewer. */
  lemma EditorIsLoggedIn(user: Option<User>, authorname: Option<string>, post: Post,
                         id: Option<string>, comments: seq<Comment>)
    ensures var v := Render(user, authorname, Some(post), id, comments);
            v.editLink.Some? ==> v.favouriteButton.Some? && v.commentForm.Some? && !v.loginPrompt
  {
  }

  /** The two identity checks disagree: a viewer whose display name equals
      the post's author name gets the edit and delete controls even when the
      author link says the post belongs to another username. */
  lemma EditGateIgnoresUsername(user: User, post: Post, id: Option<string>, comments: seq<Comment>)
    requires user.username != post.username
    ensures var v := Render(Some(user), Some(post.authorName), Some(post), id, comments);
            v.editLink.Some? && v.deleteControl == Some(post.id)
            && v.authorLink == UserPathPrefix + post.username
  {
  }

  /** Conversely, the owner by username is denied the edit controls while
      their fetched display name differs from the post's author name (for
      instance while it is still the initial "" or came back `null`). */
  lemma OwnerWithOtherDisplayNameCannotEdit(user: User, authorname: Option<string>, post: Post,
                                            id: Option<string>, comments: seq<Comment>)
    requires user.username == post.username
    requires authorname != Some(post.authorName)
    ensures var v := Render(Some(user), authorname, Some(post), id, comments);
            v.editLink.None? && v.deleteControl.None? && v.authorLink == UserDataPath
  {
  }

  /** Re-rendering the reversed comment list reverses it back: a single
      render's reversal loses nothing and invents nothing. */
  lemma CommentsReversedOnce(user: Option<User>, authorname: Option<string>, post: Post,
                             id: Option<string>, comments: seq<Comment>)
    ensures Reverse(Render(user, authorname, Some(post), id, comments).comments) == comments
  {
    ReverseInvolution(comments);
  }
}
